=== FILE: README.md ===
# Gifticon screens: the voucher lifecycle rules

A Dafny model of the pure rules behind the gifticon (mobile voucher) app's
screens. Each voucher record has a stored status (`available`, `used`), an
expiry date, a registration date and an optional category. The screens
derive everything else from those fields and today's date:

- **Home screen** (`MainScreen`):
  - the D-day badge on each card (colour and text);
  - the "available" and "used" tabs, and their counts;
  - the category chip filter;
  - the two sort orders: by expiry, and newest registration first;
  - the zero-padded header count.
- **Alert screen** (`AlertScreen`):
  - classifies each record as expired, due today, D-1..D-7, or no alert;
  - collects the alerts into a "확인할 알림" bucket and a "만료된 알림" bucket;
  - turns each non-empty bucket into a sorted section.
- **Search screen** (`SearchScreen`): the keyword filter run on every input change.
- **Detail screen** (`DetailScreen`):
  - the effective status: used, expired against the current instant, or available;
  - the overlay banner;
  - the bottom button and what pressing it stores;
  - the share guard;
  - the rule that a detail row with a falsy value is not shown.

Supporting modules:

- `Gifticons`: the record and the calendar arithmetic.
  - Instants are milliseconds on the Korean wall clock.
  - `Time.InvalidDate` stands for the NaN that `new Date` yields on an unparseable string. Every comparison with NaN is false.
  - `DiffDays` computes `Math.ceil((midnight(expiry) - todayMidnight) / DayMs)`. It is proved equal to the difference of day numbers.
- `StableSort`: `Array.prototype.sort` with a difference comparator.
  - It is an insertion sort driven by the comparator.
  - It is proved to be a permutation.
  - It is proved sorted by key when the comparator is a key difference.
  - It is proved stable: each key's records keep their order.
  - It is proved to be the identity when the comparator never says "greater".
- `Seqs`: `filter` and count. `FilterUnique` proves that the filter is the only order-preserving selection with its membership and count.
- `Text`: the ECMAScript `trim` whitespace set, ASCII `toLowerCase`, and `includes`.
- `Decimal`: `toString` of naturals and `padStart(2, '0')`.
- `ScreenAgreement`: how the screens' separate date rules relate.
  - The home badge and the alert list agree.
  - The home tabs and the detail screen disagree on the expiry day itself. The home tabs compare with today's midnight; the detail screen compares with the current instant.
  - `ExpiryDayDisagreement` gives a concrete voucher: on its expiry day the home screen lists it as available with "D-0", while its detail screen calls it expired and refuses to share it.

`today` (a day number) and `now` (an instant) are parameters, because the
screens read the device clock.

## Model

| member | source | states |
|---|---|---|
| Gifticons.DiffDays | src/screens/MainScreen.tsx:93-95 | the ceiling of the midnight-to-midnight gap in days is exactly expiry day minus today; NaN (unparseable expiry) gives no number |
| Gifticons.Midnight | src/screens/MainScreen.tsx:94 | `setHours(0,0,0,0)` lands on a whole-day boundary on the same day, at most a day before the instant, which is the start of that day |
| Gifticons.CeilDays | src/screens/MainScreen.tsx:95 | `Math.ceil(a / DayMs)` is the least whole number of days covering `a` |
| Gifticons.OnOrAfterStartOfDay | src/screens/MainScreen.tsx:160 | comparing an instant with today's midnight is comparing its day number with today |
| MainScreen.AvailableList | src/screens/MainScreen.tsx:160 | the available tab keeps, in order, exactly the stored-available records whose expiry day is today or later, each as often as it occurs |
| MainScreen.UsedList | src/screens/MainScreen.tsx:161 | the used tab keeps, in order, exactly the used records and the records whose expiry day is before today, each as often as it occurs |
| MainScreen.TabsPartition | src/screens/MainScreen.tsx:160-161 | a record with a known status and a parsed expiry is on exactly one tab |
| MainScreen.TabsDisjoint | src/screens/MainScreen.tsx:160-161 | no record is on both tabs; an available record with an unparseable expiry is on neither |
| MainScreen.TabCounts | src/screens/MainScreen.tsx:160-173 | the two tab counts add up to at most the number of records, and to exactly that number when every record is well-formed |
| MainScreen.CategoryFilter | src/screens/MainScreen.tsx:163 | no selection keeps the list; a selected category keeps, in order, exactly that category's records, each as often as it occurs |
| MainScreen.FilterByTabAndCategory | src/screens/MainScreen.tsx:162-163 | filtering by tab and then by category is one filter by the conjunction |
| MainScreen.SortGifticons | src/screens/MainScreen.tsx:164 | the sort is a permutation; "유효기간 순" gives ascending expiry and "등록날짜 순" newest registration first when those dates parse; any other label keeps the order (`Comparator` maps the label to its comparator) |
| MainScreen.ExpirySortStable | src/screens/MainScreen.tsx:164 | records with equal expiry keep their relative order under the expiry sort |
| MainScreen.RegistrationSortStable | src/screens/MainScreen.tsx:164 | records with equal registration time keep their relative order under the registration sort |
| MainScreen.BuildView | src/screens/MainScreen.tsx:159-173 | the header and the available tab show the available count, the used tab the used count, and the grid the chosen sort of exactly the records on the tab and in the category; on the available tab "유효기간 순" lists them by ascending expiry |
| MainScreen.AvailableHaveExpiry | src/screens/MainScreen.tsx:160-164 | every record the available tab shows has a parsed expiry, so the expiry sort orders that tab fully |
| MainScreen.CardBadge | src/screens/MainScreen.tsx:92-104 | on a card, the badge is gray when the expiry day is today or earlier, red for 1 to 7 days ahead, main colour beyond that or for an unparseable expiry; it reads D-n with n the day gap from the expiry day on |
| MainScreen.BadgeFor | src/screens/MainScreen.tsx:96-104 | the badge is gray at 0 days or fewer, red at 1 to 7, main colour beyond 7 or for NaN; it reads D-n from 0 days on and "만료" otherwise |
| MainScreen.BadgeTextInjective | src/screens/MainScreen.tsx:104 | two badges with the same text (`BadgeText`) have the same label, so the text tells the day count |
| MainScreen.HeaderCountText | src/screens/MainScreen.tsx:39 | the header line is the count's digits, padded to exactly two below 10 and unpadded from 10 on, reading back as the count, followed by "개 남아있어요." |
| Decimal.PadTwo | src/screens/MainScreen.tsx:39 | `padStart(2, '0')` of the count gives digits that read back as the count: exactly two below 10, the plain decimal text from 10 on |
| Decimal.FromNat | src/screens/MainScreen.tsx:39 | `toString()` of a count: a non-empty string of digits with no leading zero, a single digit exactly below 10 |
| Decimal.ToNatFromNat | src/screens/MainScreen.tsx:39 | the decimal text of a number reads back as that number |
| Decimal.FromNatInjective | src/screens/AlertScreen.tsx:93 | different day counts never print the same digits |
| AlertScreen.Classify | src/screens/AlertScreen.tsx:64-98 | expired before today, due today, D-n for 1 to 7 days ahead with n the day gap, and no alert beyond 7 days or for an unparseable expiry; the status is not consulted |
| AlertScreen.TimeLabelInjective | src/screens/AlertScreen.tsx:69-97 | different alert kinds carry different time labels (`TimeLabel`) |
| AlertScreen.DescriptionInjective | src/screens/AlertScreen.tsx:73-92 | different alert kinds carry different sentences (`Description`), so a D-n sentence tells the day count |
| AlertScreen.Collect | src/screens/AlertScreen.tsx:58-98 | each bucket holds, in input order, exactly the records of its kind, each alert being the one its record raises |
| AlertScreen.TodaySectionBuilt | src/screens/AlertScreen.tsx:101-102 | the sorted today bucket is a permutation of it with expiry ascending, alerts sharing an expiry in bucket order |
| AlertScreen.EarliestKeepsTies | src/screens/AlertScreen.tsx:102 | the stable sort of the today bucket keeps alerts sharing an expiry in bucket order |
| AlertScreen.ExpiredSectionBuilt | src/screens/AlertScreen.tsx:104-105 | the sorted expired bucket is a permutation of it with expiry descending, alerts sharing an expiry in bucket order |
| AlertScreen.LatestKeepsTies | src/screens/AlertScreen.tsx:105 | the stable sort of the expired bucket keeps alerts sharing an expiry in bucket order |
| AlertScreen.ArrangeShape | src/screens/AlertScreen.tsx:100-106 | one section per non-empty bucket and no more; the today section comes first exactly when its bucket is non-empty, the expired section last exactly when its bucket is non-empty |
| AlertScreen.Sections | src/screens/AlertScreen.tsx:58-108 | a "확인할 알림" section leads exactly when some record is due within 7 days, a "만료된 알림" section closes exactly when some record has expired, and the list holds one section for each of these cases that holds, so neither appears twice |
| AlertScreen.BucketNonEmpty | src/screens/AlertScreen.tsx:101 | a bucket is non-empty exactly when some record passes its test |
| SearchScreen.Search | src/screens/SearchScreen.tsx:110-123 | a non-array parameter or a blank keyword gives no results; otherwise the results keep, in order, exactly the records whose brand or title contains the keyword ignoring case, each as often as it occurs |
| SearchScreen.SearchIsFilter | src/screens/SearchScreen.tsx:116-122 | the results are the order-preserving selection of the records matching the keyword, by the occurrence definition of matching |
| SearchScreen.LoweredMatching | src/screens/SearchScreen.tsx:116-120 | the screen's `includes` test on lowercased brand and title is exactly occurrence of the lowercased keyword in either |
| SearchScreen.BlankIffAllWhitespace | src/screens/SearchScreen.tsx:112 | the keyword clears the results exactly when every character is whitespace `trim` removes |
| SearchScreen.NotBlank | src/screens/SearchScreen.tsx:112 | one character `trim` keeps makes the keyword non-blank |
| SearchScreen.TooLongNeverMatches | src/screens/SearchScreen.tsx:117-121 | a keyword longer than both brand and title matches nothing |
| SearchScreen.UntrimmedKeyword | src/screens/SearchScreen.tsx:112-121 | surrounding spaces stay in the keyword: " ab" finds nothing although the brand is "ab" |
| SearchScreen.TrimmedKeyword | src/screens/SearchScreen.tsx:116-121 | "ab" finds the brand "ab" |
| SearchScreen.CaseBlind | src/screens/SearchScreen.tsx:112-120 | two keywords that lowercase alike give the same results, blank or not |
| SearchScreen.InputOrderKept | src/screens/SearchScreen.tsx:117-122 | the results keep input order: a matching record at the head of the input heads the results, used or not, with the rest's results behind it |
| SearchScreen.CaseInsensitive | src/screens/SearchScreen.tsx:116-120 | "AB" finds the title "xaby" |
| Text.Trim | src/screens/SearchScreen.tsx:112 | `trim` removes exactly the leading and trailing whitespace, leaving a middle slice that neither starts nor ends with whitespace |
| Text.TrimEmptyIff | src/screens/SearchScreen.tsx:112 | the trimmed keyword is empty exactly when every character is whitespace |
| Text.ToLower | src/screens/SearchScreen.tsx:116 | lowercasing maps each character separately, each capital `A`-`Z` to its own small letter and every other character to itself |
| Text.Includes | src/screens/SearchScreen.tsx:119-120 | `includes` holds exactly when the needle occurs at some position |
| DetailScreen.EffectiveStatus | src/screens/DetailScreen.tsx:116-122 | used wins; otherwise expired exactly when the expiry parses and is before now; otherwise available |
| DetailScreen.Overlay | src/screens/DetailScreen.tsx:45-53 | no banner exactly when available; "사용 완료" for used, "기간 만료" for expired |
| DetailScreen.BottomButton | src/screens/DetailScreen.tsx:288-297 | used offers "사용 취소" back to available, expired a disabled "기간 만료", available "사용 완료" to used |
| DetailScreen.Press | src/screens/DetailScreen.tsx:288-297 | pressing changes only the stored status: available becomes used, used becomes available, and an expired voucher is left as it is |
| DetailScreen.PressToggles | src/screens/DetailScreen.tsx:290-296 | on an available voucher, pressing makes it used and pressing again makes it available again |
| DetailScreen.UndoAfterExpiry | src/screens/DetailScreen.tsx:290-294 | undoing "used" after the expiry has passed leaves the voucher expired, with the button disabled |
| DetailScreen.Share | src/screens/DetailScreen.tsx:274-278 | sharing goes ahead exactly when the voucher is effectively available |
| DetailScreen.ShareableIffUnbannered | src/screens/DetailScreen.tsx:274-297 | shareable exactly when no banner covers the image, exactly when the button marks it used |
| DetailScreen.DetailRow | src/screens/DetailScreen.tsx:32-43 | nothing for an absent or empty value; otherwise the label, the value, and an arrow exactly when the row is pressable |
| StableSort.Sort | src/screens/MainScreen.tsx:164 | the sort output is a permutation of its input |
| StableSort.SortSorted | src/screens/MainScreen.tsx:164 | with a difference comparator on an integer key the output is ascending by key |
| StableSort.SortStable | src/screens/MainScreen.tsx:164 | records with equal key appear in the output in their input order |
| StableSort.SortIdentity | src/screens/MainScreen.tsx:164 | a comparator that never says "greater" leaves the order unchanged |
| Seqs.Filter | src/screens/SearchScreen.tsx:117-121 | `filter` keeps, in order, exactly the elements that pass, as many as pass |
| Seqs.FilterUnique | src/screens/SearchScreen.tsx:117-121 | any order-preserving selection with those members and that count is the filter |
| Seqs.CountSplit | src/screens/MainScreen.tsx:160-161 | the counts of disjoint filters and of what neither keeps add up to the length |
| ScreenAgreement.BadgeAgreesWithAlert | src/screens/MainScreen.tsx:96-104 | gray cards raise expired or today alerts, red cards D-n alerts with the same text, main-colour cards none |
| ScreenAgreement.ExpiryDayBadge | src/screens/MainScreen.tsx:96-104 | a record listed as available on its expiry day shows a gray "D-0" |
| ScreenAgreement.DetailAvailableIsListed | src/screens/DetailScreen.tsx:118-122 | a voucher the detail screen calls available is on the home screen's available tab that day |
| ScreenAgreement.ExpiryDayDisagreement | src/screens/DetailScreen.tsx:118-122 | on its expiry day a voucher is listed available at home with a "D-0" badge while the detail screen calls it expired, disables the button and refuses sharing |
| ScreenAgreement.ExpiryDayWindow | src/screens/DetailScreen.tsx:118-122 | a voucher whose expiry instant falls between today's midnight and now is listed available at home while the detail screen calls it expired and refuses sharing |
| ScreenAgreement.UnparsedExpiryDisagreement | src/screens/DetailScreen.tsx:118-122 | an unparseable expiry is available and shareable on the detail screen but on neither home tab |

## Left out

- The photo-ingestion pipeline (asset enumeration, field extraction, deduplication, the scan cursor and the single-scan guard) is not part of this model. Its hooks are not among the source files modelled; only the screens that consume the records are.
- Loading and storing records (`getAllGifticons`, `getAllCategories`, `getGifticon`, `getCategory`, `updateGifticonStatus`, `saveCategory`) are foreign calls. The records are a parameter.
- Reading the clock and the UTC+9 shift (`getKoreanToday`, `new Date()`) are left out. `today` and `now` are parameters on the Korean wall clock.
- Date-string parsing (`new Date(str)`) is abstracted to `Time`: a millisecond instant or NaN.
- Rendering, navigation, alert dialogs, the 200 ms timer, the image modal, saving the image and the share sheet (`triggerShareFlow`) are UI or device I/O. Only the decision that selects them is modelled.
- The confirmation dialog before a status change, and delete/edit on the detail screen, are left out. `Press` models the status the confirmed change stores.
- The `date` field of expired alerts (`toLocaleDateString('ko-KR')`) is locale formatting and is left out.
- The category-creation modal, the category chip row, the memo and category rows on the detail screen, and the other screens (settings, my page, notification settings, splash, auto scanner) are left out. They hold no voucher-lifecycle rule.
- The detail screen's loading state and the `effectiveStatus` value before loading finishes are left out.
- Text.ToLower: lowercases ASCII `A`-`Z` only. `String.prototype.toLowerCase` also maps other scripts' capitals, and this model has no Unicode case tables.
- MainScreen.SortGifticons: when some date does not parse, the comparator is inconsistent and the order is left to the engine, so only a permutation is promised.
- SearchScreen.Search: models the record shape the search screen declares (`brand`, `title`). The home screen hands over its stored records (`brandName`, `productName`); the service's record type is not part of this model, so what `brand` holds for those records is not modelled. The home screen passes those stored records (src/screens/MainScreen.tsx:180), and the alert screen builds `brand` from `brandName` (src/screens/AlertScreen.tsx:72), which suggests the stored records carry no `brand`; if so, `g.brand.toLowerCase()` (src/screens/SearchScreen.tsx:119) throws on any non-blank keyword and the results are never set.
- SearchScreen.Search: the hint "※ 사용 가능한 기프티콘 먼저 노출됩니다" (src/screens/SearchScreen.tsx:60) promises available vouchers first, but the filter keeps input order and never reorders by status; the model follows the filter (`InputOrderKept`).

=== FILE: alert_screen.dfy ===
/**
  The alert list (`src/screens/AlertScreen.tsx`): every record the home
  screen hands over is classified by its day difference into at most one
  alert, alerts are collected into a "check now" bucket and an "already
  expired" bucket in input order, and each non-empty bucket becomes a
  sorted section.
 */
module AlertScreen {
  import opened Maybe
  import opened Seqs
  import opened StableSort
  import opened Decimal
  import opened Gifticons

  datatype AlertKind = ExpiredAlert | TodayAlert | DDayAlert(days: nat)

  /**
    The alert a record raises: `None` when its expiry is more than seven
    days away or does not parse. The stored status is not consulted.
   */
  function Classify(g: Gifticon, today: int): (k: Option<AlertKind>)
    ensures k == Some(ExpiredAlert) <==> g.expiry.At? && DayOf(g.expiry.ms) < today
    ensures k == Some(TodayAlert) <==> g.expiry.At? && DayOf(g.expiry.ms) == today
    ensures (k.Some? && k.value.DDayAlert?) <==> g.expiry.At? && today < DayOf(g.expiry.ms) <= today + 7
    ensures k.Some? && k.value.DDayAlert? ==> k.value.days == DayOf(g.expiry.ms) - today
    ensures k.None? <==> g.expiry.InvalidDate? || DayOf(g.expiry.ms) > today + 7
  {
    match DiffDays(g.expiry, today)
    case None => None
    case Some(d) =>
      if d < 0 then Some(ExpiredAlert)
      else if d == 0 then Some(TodayAlert)
      else if d <= 7 then Some(DDayAlert(d))
      else None
  }

  /** The badge text of an alert. */
  function TimeLabel(k: AlertKind): string {
    match k
    case ExpiredAlert => "만료됨"
    case TodayAlert => "오늘 만료"
    case DDayAlert(n) => "D-" + FromNat(n)
  }

  const DDayLead: string := "유효기간 만료일이 "
  const DDayTail: string := "일 남았어요."

  /** The sentence under the brand name. */
  function Description(k: AlertKind): string {
    match k
    case ExpiredAlert => "이미 만료된 기프티콘입니다."
    case TodayAlert => DDayLead + "오늘이에요!"
    case DDayAlert(n) => DDayLead + FromNat(n) + DDayTail
  }

  /** Different alert kinds carry different sentences, so a D-n sentence tells the day count. */
  lemma DescriptionInjective(a: AlertKind, b: AlertKind)
    ensures Description(a) == Description(b) ==> a == b
  {
    if Description(a) == Description(b) {
      var s := Description(a);
      match a
      case ExpiredAlert =>
        assert s[0] == '이';
      case TodayAlert => {
        assert s[|DDayLead|] == '오';
        match b
        case ExpiredAlert =>
        case TodayAlert =>
        case DDayAlert(m) =>
      }
      case DDayAlert(n) => {
        assert s[0] == '유';
        assert s[|DDayLead|] == FromNat(n)[0];
        match b
        case ExpiredAlert =>
        case TodayAlert =>
        case DDayAlert(m) =>
          assert |FromNat(n)| == |FromNat(m)|;
          assert FromNat(n) == s[|DDayLead|..|DDayLead| + |FromNat(n)|];
          assert FromNat(m) == Description(b)[|DDayLead|..|DDayLead| + |FromNat(m)|];
          FromNatInjective(n, m);
      }
    }
  }

  /** Different alert kinds carry different badge texts. */
  lemma TimeLabelInjective(a: AlertKind, b: AlertKind)
    ensures TimeLabel(a) == TimeLabel(b) ==> a == b
  {
    if TimeLabel(a) == TimeLabel(b) {
      match a
      case DDayAlert(n) => {
        assert TimeLabel(a)[0] == 'D';
        match b
        case DDayAlert(m) =>
          assert FromNat(n) == TimeLabel(a)[2..];
          assert FromNat(m) == TimeLabel(b)[2..];
          FromNatInjective(n, m);
        case ExpiredAlert =>
        case TodayAlert =>
      }
      case ExpiredAlert =>
        assert TimeLabel(a)[1] == '료';
      case TodayAlert =>
        assert TimeLabel(a)[0] == '오';
    }
  }

  /** An alert carries the record it was raised for. */
  datatype Alert = Alert(item: Gifticon, kind: AlertKind)

  /** Records that raise a today or D-1..D-7 alert. */
  function DueSoon(today: int): Gifticon -> bool {
    (g: Gifticon) => Classify(g, today).Some? && !Classify(g, today).value.ExpiredAlert?
  }

  /** Records that raise an expired alert. */
  function HasExpired(today: int): Gifticon -> bool {
    (g: Gifticon) => Classify(g, today) == Some(ExpiredAlert)
  }

  /** The records the alerts were raised for, in order. */
  function Items(alerts: seq<Alert>): (items: seq<Gifticon>)
    ensures |items| == |alerts|
    ensures forall i :: 0 <= i < |alerts| ==> items[i] == alerts[i].item
  {
    seq(|alerts|, i requires 0 <= i < |alerts| => alerts[i].item)
  }

  /** Every alert is the one its record raises. */
  ghost predicate Faithful(alerts: seq<Alert>, today: int) {
    forall i :: 0 <= i < |alerts| ==> Classify(alerts[i].item, today) == Some(alerts[i].kind)
  }

  datatype Buckets = Buckets(todayAlerts: seq<Alert>, previousAlerts: seq<Alert>)

  /** Pushing the alert a record raises keeps a bucket faithful and extends its records. */
  lemma Prepend(alert: Alert, rest: seq<Alert>, today: int)
    requires Classify(alert.item, today) == Some(alert.kind)
    requires Faithful(rest, today)
    ensures Faithful([alert] + rest, today)
    ensures Items([alert] + rest) == [alert.item] + Items(rest)
  {
  }

  /** The `forEach` over the records: each alert is pushed onto its bucket in input order. */
  function Collect(gs: seq<Gifticon>, today: int): (b: Buckets)
    ensures Faithful(b.todayAlerts, today) && Faithful(b.previousAlerts, today)
    ensures Items(b.todayAlerts) == Filter(gs, DueSoon(today))
    ensures Items(b.previousAlerts) == Filter(gs, HasExpired(today))
    ensures |b.todayAlerts| + |b.previousAlerts| <= |gs|
    decreases |gs|
  {
    if |gs| == 0 then Buckets([], [])
    else
      var rest := Collect(gs[1..], today);
      var k := Classify(gs[0], today);
      if k.None? then
        rest
      else if k.value.ExpiredAlert? then
        Prepend(Alert(gs[0], k.value), rest.previousAlerts, today);
        Buckets(rest.todayAlerts, [Alert(gs[0], k.value)] + rest.previousAlerts)
      else
        Prepend(Alert(gs[0], k.value), rest.todayAlerts, today);
        Buckets([Alert(gs[0], k.value)] + rest.todayAlerts, rest.previousAlerts)
  }

  /** Earliest expiry first (the today section). */
  function EarliestFirst(a: Alert, b: Alert): int {
    TimeDiff(a.item.expiry, b.item.expiry)
  }

  /** Latest expiry first (the expired section). */
  function LatestFirst(a: Alert, b: Alert): int {
    TimeDiff(b.item.expiry, a.item.expiry)
  }

  /** The expiry key of the alerted record. */
  function AlertExpiry(a: Alert): int {
    ExpiryKey(a.item)
  }

  /** Expiry negated, so that ascending key order is latest first; equal keys mean equal expiry. */
  function LatestKey(a: Alert): int {
    -AlertExpiry(a)
  }

  datatype Section = Section(title: string, data: seq<Alert>)

  const TodayTitle: string := "확인할 알림"
  const ExpiredTitle: string := "만료된 알림"

  /** Alerts sharing a sort key (for these keys: sharing an expiry) keep the order they have in `bucket`. */
  ghost predicate KeepsTies(data: seq<Alert>, bucket: seq<Alert>, key: Alert -> int) {
    forall k :: Filter(data, KeyIs(key, k)) == Filter(bucket, KeyIs(key, k))
  }

  /** The today section: the today bucket, non-empty, earliest expiry first, ties in bucket order. */
  ghost predicate IsTodaySection(sec: Section, b: Buckets) {
    && sec.title == TodayTitle
    && |sec.data| > 0
    && multiset(sec.data) == multiset(b.todayAlerts)
    && ExpiryAscending(Items(sec.data))
    && KeepsTies(sec.data, b.todayAlerts, AlertExpiry)
  }

  /** The expired section: the previous bucket, non-empty, latest expiry first, ties in bucket order. */
  ghost predicate IsExpiredSection(sec: Section, b: Buckets) {
    && sec.title == ExpiredTitle
    && |sec.data| > 0
    && multiset(sec.data) == multiset(b.previousAlerts)
    && ExpiryDescending(Items(sec.data))
    && KeepsTies(sec.data, b.previousAlerts, LatestKey)
  }

  /** Alerts raised for records that all have a parsed expiry. */
  lemma FaithfulHasExpiry(alerts: seq<Alert>, today: int)
    requires Faithful(alerts, today)
    ensures forall a :: a in alerts ==> a.item.expiry.At?
  {
    forall a | a in alerts ensures a.item.expiry.At? {
      var i :| 0 <= i < |alerts| && alerts[i] == a;
    }
  }

  /** The today bucket, sorted, forms a today section. */
  lemma TodaySectionBuilt(b: Buckets, today: int)
    requires Faithful(b.todayAlerts, today) && |b.todayAlerts| > 0
    ensures IsTodaySection(Section(TodayTitle, Sort(b.todayAlerts, EarliestFirst)), b)
  {
    var alerts := b.todayAlerts;
    FaithfulHasExpiry(alerts, today);
    assert DifferenceOn(alerts, EarliestFirst, AlertExpiry);
    SortSorted(alerts, EarliestFirst, AlertExpiry);
    var r := Sort(alerts, EarliestFirst);
    forall i | 0 <= i < |r| ensures r[i].item.expiry.At? {
      assert r[i] in multiset(alerts);
    }
    EarliestKeepsTies(alerts);
  }

  /** The previous bucket, sorted, forms an expired section. */
  lemma ExpiredSectionBuilt(b: Buckets, today: int)
    requires Faithful(b.previousAlerts, today) && |b.previousAlerts| > 0
    ensures IsExpiredSection(Section(ExpiredTitle, Sort(b.previousAlerts, LatestFirst)), b)
  {
    var alerts := b.previousAlerts;
    FaithfulHasExpiry(alerts, today);
    assert DifferenceOn(alerts, LatestFirst, LatestKey);
    SortSorted(alerts, LatestFirst, LatestKey);
    var r := Sort(alerts, LatestFirst);
    forall i | 0 <= i < |r| ensures r[i].item.expiry.At? {
      assert r[i] in multiset(alerts);
    }
    LatestKeepsTies(alerts);
  }

  /** The stable sort of the today bucket keeps equal-expiry alerts in bucket order. */
  lemma EarliestKeepsTies(alerts: seq<Alert>)
    requires DifferenceOn(alerts, EarliestFirst, AlertExpiry)
    ensures KeepsTies(Sort(alerts, EarliestFirst), alerts, AlertExpiry)
  {
    forall k ensures Filter(Sort(alerts, EarliestFirst), KeyIs(AlertExpiry, k)) == Filter(alerts, KeyIs(AlertExpiry, k)) {
      SortStable(alerts, EarliestFirst, AlertExpiry, k);
    }
  }

  /** The stable sort of the expired bucket keeps equal-expiry alerts in bucket order. */
  lemma LatestKeepsTies(alerts: seq<Alert>)
    requires DifferenceOn(alerts, LatestFirst, LatestKey)
    ensures KeepsTies(Sort(alerts, LatestFirst), alerts, LatestKey)
  {
    forall k ensures Filter(Sort(alerts, LatestFirst), KeyIs(LatestKey, k)) == Filter(alerts, KeyIs(LatestKey, k)) {
      SortStable(alerts, LatestFirst, LatestKey, k);
    }
  }

  /** The section list built from the two buckets: today first, each only when non-empty. */
  function Arrange(b: Buckets): seq<Section> {
    (if |b.todayAlerts| > 0 then [Section(TodayTitle, Sort(b.todayAlerts, EarliestFirst))] else [])
    + (if |b.previousAlerts| > 0 then [Section(ExpiredTitle, Sort(b.previousAlerts, LatestFirst))] else [])
  }

  lemma ArrangeShape(b: Buckets, today: int)
    requires Faithful(b.todayAlerts, today) && Faithful(b.previousAlerts, today)
    ensures |Arrange(b)| == (if |b.todayAlerts| > 0 then 1 else 0) + (if |b.previousAlerts| > 0 then 1 else 0)
    ensures |b.todayAlerts| > 0 <==> |Arrange(b)| > 0 && IsTodaySection(Arrange(b)[0], b)
    ensures |b.previousAlerts| > 0 <==> |Arrange(b)| > 0 && IsExpiredSection(Arrange(b)[|Arrange(b)| - 1], b)
    ensures forall i :: 0 <= i < |Arrange(b)| ==> IsTodaySection(Arrange(b)[i], b) || IsExpiredSection(Arrange(b)[i], b)
  {
    var ts := Section(TodayTitle, Sort(b.todayAlerts, EarliestFirst));
    var es := Section(ExpiredTitle, Sort(b.previousAlerts, LatestFirst));
    if |b.todayAlerts| > 0 {
      TodaySectionBuilt(b, today);
    }
    if |b.previousAlerts| > 0 {
      ExpiredSectionBuilt(b, today);
    }
    ShapeOf(Arrange(b), b, ts, es);
  }

  /** The shape of a section list holding the today section `ts` and the expired section `es`, each when its bucket is non-empty. */
  lemma ShapeOf(r: seq<Section>, b: Buckets, ts: Section, es: Section)
    requires ts.title == TodayTitle && es.title == ExpiredTitle
    requires |b.todayAlerts| > 0 ==> IsTodaySection(ts, b)
    requires |b.previousAlerts| > 0 ==> IsExpiredSection(es, b)
    requires r == (if |b.todayAlerts| > 0 then [ts] else []) + (if |b.previousAlerts| > 0 then [es] else [])
    ensures |r| == (if |b.todayAlerts| > 0 then 1 else 0) + (if |b.previousAlerts| > 0 then 1 else 0)
    ensures |b.todayAlerts| > 0 <==> |r| > 0 && IsTodaySection(r[0], b)
    ensures |b.previousAlerts| > 0 <==> |r| > 0 && IsExpiredSection(r[|r| - 1], b)
    ensures forall i :: 0 <= i < |r| ==> IsTodaySection(r[i], b) || IsExpiredSection(r[i], b)
  {
    assert TodayTitle[0] != ExpiredTitle[0];
    if |b.todayAlerts| > 0 && |b.previousAlerts| > 0 {
      assert r == [ts, es];
      forall i | 0 <= i < |r| ensures IsTodaySection(r[i], b) || IsExpiredSection(r[i], b) {
        if i == 0 { assert r[i] == ts; } else { assert r[i] == es; }
      }
    } else if |b.todayAlerts| > 0 {
      assert r == [ts];
    } else if |b.previousAlerts| > 0 {
      assert r == [es];
    } else {
      assert r == [];
    }
  }

  /**
    The sections the list renders: a today section when that bucket is
    non-empty, then an expired section when that one is.
   */
  function Sections(gs: seq<Gifticon>, today: int): (r: seq<Section>)
    ensures |r| == (if exists i :: 0 <= i < |gs| && DueSoon(today)(gs[i]) then 1 else 0)
      + (if exists i :: 0 <= i < |gs| && HasExpired(today)(gs[i]) then 1 else 0)
    ensures (exists i :: 0 <= i < |gs| && DueSoon(today)(gs[i])) <==> |r| > 0 && IsTodaySection(r[0], Collect(gs, today))
    ensures (exists i :: 0 <= i < |gs| && HasExpired(today)(gs[i])) <==>
      |r| > 0 && IsExpiredSection(r[|r| - 1], Collect(gs, today))
    ensures forall i :: 0 <= i < |r| ==>
      IsTodaySection(r[i], Collect(gs, today)) || IsExpiredSection(r[i], Collect(gs, today))
  {
    var b := Collect(gs, today);
    BucketNonEmpty(gs, DueSoon(today), Items(b.todayAlerts));
    BucketNonEmpty(gs, HasExpired(today), Items(b.previousAlerts));
    ArrangeShape(b, today);
    Arrange(b)
  }

  /** A filtered list is non-empty exactly when some element passes. */
  lemma BucketNonEmpty(gs: seq<Gifticon>, p: Gifticon -> bool, items: seq<Gifticon>)
    requires items == Filter(gs, p)
    ensures |items| > 0 <==> exists i :: 0 <= i < |gs| && p(gs[i])
  {
    if exists i :: 0 <= i < |gs| && p(gs[i]) {
      var i :| 0 <= i < |gs| && p(gs[i]);
      assert gs[i] in items;
    }
  }
}

=== FILE: decimal.dfy ===
/**
  Decimal rendering of non-negative integers, as JavaScript's
  `Number.prototype.toString()` produces it for integral values, and the
  `padStart(2, '0')` the home header applies to its count.
 */
module Decimal {
  import opened Maybe

  predicate IsDigit(c: char) {
    '0' <= c <= '9'
  }

  predicate AllDigits(s: string) {
    forall i :: 0 <= i < |s| ==> IsDigit(s[i])
  }

  function DigitChar(d: nat): (c: char)
    requires d < 10
    ensures IsDigit(c)
  {
    (('0' as int) + d) as char
  }

  function DigitValue(c: char): (d: nat)
    requires IsDigit(c)
    ensures d < 10
  {
    (c as int) - ('0' as int)
  }

  /** The shortest decimal spelling of `n`: no leading zero except for `0` itself. */
  function FromNat(n: nat): (s: string)
    ensures |s| >= 1
    ensures AllDigits(s)
    ensures |s| > 1 ==> s[0] != '0'
    ensures n < 10 <==> |s| == 1
  {
    if n < 10 then [DigitChar(n)]
    else FromNat(n / 10) + [DigitChar(n % 10)]
  }

  /** The value a string of digits denotes. */
  function ToNat(s: string): nat
    requires AllDigits(s)
  {
    if |s| == 0 then 0
    else ToNat(s[..|s| - 1]) * 10 + DigitValue(s[|s| - 1])
  }

  /** Reading back a rendered number gives the number. */
  lemma {:induction false} ToNatFromNat(n: nat)
    ensures ToNat(FromNat(n)) == n
  {
    if n >= 10 {
      ToNatFromNat(n / 10);
      var s := FromNat(n);
      assert s[..|s| - 1] == FromNat(n / 10);
    }
  }

  /** Distinct numbers render as distinct strings. */
  lemma FromNatInjective(a: nat, b: nat)
    ensures FromNat(a) == FromNat(b) ==> a == b
  {
    ToNatFromNat(a);
    ToNatFromNat(b);
  }

  /** A leading zero does not change the value. */
  lemma {:induction false} ToNatLeadingZero(s: string)
    requires AllDigits(s)
    ensures AllDigits("0" + s) && ToNat("0" + s) == ToNat(s)
    decreases |s|
  {
    if |s| > 0 {
      var init := s[..|s| - 1];
      ToNatLeadingZero(init);
      assert ("0" + s)[..|s|] == "0" + init;
    }
  }

  /** `n.toString().padStart(2, '0')`. */
  function PadTwo(n: nat): (s: string)
    ensures |s| >= 2
    ensures n < 10 ==> |s| == 2
    ensures AllDigits(s) && ToNat(s) == n
    ensures n >= 10 ==> s == FromNat(n)
  {
    ToNatFromNat(n);
    var digits := FromNat(n);
    if |digits| < 2 then
      ToNatLeadingZero(digits);
      "0" + digits
    else digits
  }
}

=== FILE: detail_screen.dfy ===
/**
  The detail screen (`src/screens/DetailScreen.tsx`): the effective status
  derived from the stored status and the current instant, the overlay and
  bottom button it selects, the share guard, and the rule that a detail
  row with a falsy value is not rendered.
 */
module DetailScreen {
  import opened Maybe
  import opened Gifticons

  datatype Effective = EffectiveAvailable | EffectiveUsed | EffectiveExpired

  /**
    Used wins over everything; otherwise the voucher is expired when its
    expiry instant is before `now`. An expiry that does not parse compares
    false, so such a voucher stays available.
   */
  function EffectiveStatus(g: Gifticon, now: int): (e: Effective)
    ensures g.status == Used ==> e == EffectiveUsed
    ensures g.status != Used ==> (e == EffectiveExpired <==> g.expiry.At? && g.expiry.ms < now)
    ensures e == EffectiveAvailable <==> g.status != Used && !(g.expiry.At? && g.expiry.ms < now)
  {
    if g.status == Used then EffectiveUsed
    else if g.expiry.At? && g.expiry.ms < now then EffectiveExpired
    else EffectiveAvailable
  }

  /** The banner laid over the image: none while available. */
  function Overlay(e: Effective): (text: Option<string>)
    ensures text.None? <==> e == EffectiveAvailable
    ensures e == EffectiveUsed ==> text == Some("사용 완료")
    ensures e == EffectiveExpired ==> text == Some("기간 만료")
  {
    if e == EffectiveAvailable then None
    else Some(if e == EffectiveUsed then "사용 완료" else "기간 만료")
  }

  /** What pressing the bottom button does: store a new status, or nothing (disabled). */
  datatype Action = SetStatus(target: Status) | Disabled

  datatype Button = Button(title: string, action: Action)

  /** `renderBottomButton`: used offers undo, expired is disabled, anything else offers "used". */
  function BottomButton(e: Effective): (b: Button)
    ensures e == EffectiveUsed ==> b == Button("사용 취소", SetStatus(Available))
    ensures e == EffectiveExpired ==> b == Button("기간 만료", Disabled)
    ensures e == EffectiveAvailable ==> b == Button("사용 완료", SetStatus(Used))
  {
    match e
    case EffectiveUsed => Button("사용 취소", SetStatus(Available))
    case EffectiveExpired => Button("기간 만료", Disabled)
    case EffectiveAvailable => Button("사용 완료", SetStatus(Used))
  }

  /** The stored record after the bottom button is pressed. */
  function Press(g: Gifticon, now: int): (g': Gifticon)
    ensures g' == g.(status := g'.status)
    ensures EffectiveStatus(g, now) == EffectiveAvailable ==> g'.status == Used
    ensures EffectiveStatus(g, now) == EffectiveUsed ==> g'.status == Available
    ensures EffectiveStatus(g, now) == EffectiveExpired ==> g' == g
  {
    match BottomButton(EffectiveStatus(g, now)).action
    case SetStatus(s) => g.(status := s)
    case Disabled => g
  }

  /**
    The button toggles: pressing it on an available voucher makes it used,
    and pressing it again restores what the screen showed before.
   */
  lemma PressToggles(g: Gifticon, now: int)
    requires EffectiveStatus(g, now) == EffectiveAvailable
    ensures EffectiveStatus(Press(g, now), now) == EffectiveUsed
    ensures EffectiveStatus(Press(Press(g, now), now), now) == EffectiveAvailable
  {
  }

  /** Undoing "used" on a voucher whose expiry has passed leaves it expired, with the button disabled. */
  lemma UndoAfterExpiry(g: Gifticon, now: int)
    requires g.status == Used && g.expiry.At? && g.expiry.ms < now
    ensures EffectiveStatus(Press(g, now), now) == EffectiveExpired
    ensures BottomButton(EffectiveStatus(Press(g, now), now)).action == Disabled
  {
  }

  datatype ShareOutcome = RejectedNotAvailable | OpenImageThenAsk

  /** `handleShare`: only a voucher that is effectively available may be shared. */
  function Share(e: Effective): (o: ShareOutcome)
    ensures o == OpenImageThenAsk <==> e == EffectiveAvailable
  {
    if e != EffectiveAvailable then RejectedNotAvailable else OpenImageThenAsk
  }

  /**
    The overlay, the share guard and the bottom button agree: a voucher is
    shareable exactly when no banner covers it, which is exactly when the
    button offers to mark it used.
   */
  lemma ShareableIffUnbannered(e: Effective)
    ensures Share(e) == OpenImageThenAsk <==> Overlay(e).None?
    ensures Overlay(e).None? <==> BottomButton(e).action == SetStatus(Used)
  {
  }

  /** A field value as the row receives it: absent (`undefined`/`null`) or a string. */
  datatype Value = Absent | Str(s: string)

  /** JavaScript truthiness of a row value: absent and the empty string are falsy. */
  predicate Truthy(v: Value) {
    v.Str? && v.s != ""
  }

  datatype Row = Row(heading: string, value: string, showsArrow: bool)

  /** `DetailRow`: nothing for a falsy value; otherwise the heading, the value and an arrow when pressable. */
  function DetailRow(heading: string, value: Value, pressable: bool): (r: Option<Row>)
    ensures r.None? <==> !Truthy(value)
    ensures r.Some? ==> r.value.heading == heading && value == Str(r.value.value) && r.value.value != ""
    ensures r.Some? ==> r.value.showsArrow == pressable
  {
    if value.Absent? || value.s == "" then None
    else Some(Row(heading, value.s, pressable))
  }
}

=== FILE: gifticons.dfy ===
/**
  The stored voucher record the screens read, and the calendar arithmetic
  they apply to its dates.

  Dates are instants in milliseconds on the Korean wall clock (the screens
  shift the device clock to UTC+9 before taking midnight). A date string
  that `new Date` cannot parse yields NaN; every comparison with NaN is
  false and every difference with it is NaN, which is why `Time` carries an
  explicit invalid case.
 */
module Gifticons {
  import opened Maybe

  datatype Status = Available | Used | OtherStatus(name: string)

  /** `new Date(str).getTime()`: an instant, or NaN for an unparseable string. */
  datatype Time = At(ms: int) | InvalidDate

  datatype Gifticon = Gifticon(
    id: string,
    brandName: string,
    productName: string,
    status: Status,
    expiry: Time,
    createdAt: Time,
    categoryId: Option<string>
  )

  /** `1000 * 60 * 60 * 24`. */
  const DayMs: int := 1000 * 60 * 60 * 24

  /** The day number an instant falls on. */
  function DayOf(ms: int): int {
    ms / DayMs
  }

  /** The instant a day starts: what `setHours(0, 0, 0, 0)` lands on. */
  function StartOfDay(day: int): (ms: int)
    ensures DayOf(ms) == day
  {
    day * DayMs
  }

  /** The start of the day of `ms`, which is never after `ms` and less than a day before it. */
  function Midnight(ms: int): (m: int)
    ensures m % DayMs == 0
    ensures m <= ms < m + DayMs
    ensures DayOf(m) == DayOf(ms)
  {
    StartOfDay(DayOf(ms))
  }

  /** `Math.ceil(a / DayMs)`. */
  function CeilDays(a: int): (q: int)
    ensures (q - 1) * DayMs < a <= q * DayMs
  {
    -((-a) / DayMs)
  }

  /** An instant is on or after the start of a day exactly when its day number is not earlier. */
  lemma OnOrAfterStartOfDay(ms: int, day: int)
    ensures ms >= StartOfDay(day) <==> DayOf(ms) >= day
  {
  }

  /**
    The whole days from today to the expiry day, computed as the home card
    and the alert list compute it:
    `Math.ceil((midnight(expiry) - todayMidnight) / DayMs)`; `None` is NaN.
   */
  function DiffDays(expiry: Time, today: int): (d: Option<int>)
    ensures d.Some? <==> expiry.At?
    ensures expiry.At? ==> d.value == DayOf(expiry.ms) - today
  {
    match expiry
    case InvalidDate => None
    case At(ms) =>
      var gap := Midnight(ms) - StartOfDay(today);
      assert gap == (DayOf(ms) - today) * DayMs;
      Some(CeilDays(gap))
  }

  /** The sort key of a parsed expiry. */
  function ExpiryKey(g: Gifticon): int {
    if g.expiry.At? then g.expiry.ms else 0
  }

  /** Every expiry parses and no record expires later than one after it. */
  ghost predicate ExpiryAscending(r: seq<Gifticon>) {
    forall i, j :: 0 <= i < j < |r| ==> r[i].expiry.At? && r[j].expiry.At? && r[i].expiry.ms <= r[j].expiry.ms
  }

  /** Every expiry parses and no record expires earlier than one after it. */
  ghost predicate ExpiryDescending(r: seq<Gifticon>) {
    forall i, j :: 0 <= i < j < |r| ==> r[i].expiry.At? && r[j].expiry.At? && r[i].expiry.ms >= r[j].expiry.ms
  }

  /**
    `x.getTime() - y.getTime()` as the sort reads it: the difference of two
    instants, and +0 when either is NaN.
   */
  function TimeDiff(x: Time, y: Time): int {
    if x.At? && y.At? then x.ms - y.ms else 0
  }
}

=== FILE: main_screen.dfy ===
/**
  The home screen (`src/screens/MainScreen.tsx`): the D-day badge on each
  card, the available/used tabs, the category chips, the two sort orders
  and the header count. `today` is the day number of the Korean calendar
  day; the screen compares expiry instants with the instant that day starts.
 */
module MainScreen {
  import opened Maybe
  import opened Seqs
  import opened StableSort
  import opened Decimal
  import opened Gifticons

  // ---------------------------------------------------------------- tabs

  /** Listed under "사용 가능": stored as available and expiring no earlier than today's midnight. */
  predicate IsAvailable(g: Gifticon, today: int) {
    g.status == Available && g.expiry.At? && g.expiry.ms >= StartOfDay(today)
  }

  /** Listed under "사용 완료": stored as used, or expiring before today's midnight. */
  predicate IsUsedOrExpired(g: Gifticon, today: int) {
    g.status == Used || (g.expiry.At? && g.expiry.ms < StartOfDay(today))
  }

  datatype Tab = AvailableTab | UsedTab

  /** The records a tab lists. */
  function OnTab(tab: Tab, today: int): Gifticon -> bool {
    (g: Gifticon) => if tab == AvailableTab then IsAvailable(g, today) else IsUsedOrExpired(g, today)
  }

  /** The available tab's test, stated on day numbers. */
  function AvailableByDay(today: int): Gifticon -> bool {
    (g: Gifticon) => g.status == Available && g.expiry.At? && DayOf(g.expiry.ms) >= today
  }

  /** The used tab's test, stated on day numbers. */
  function UsedByDay(today: int): Gifticon -> bool {
    (g: Gifticon) => g.status == Used || (g.expiry.At? && DayOf(g.expiry.ms) < today)
  }

  /** `gifticons.filter(...)` for the available tab, restated on day numbers. */
  function AvailableList(gs: seq<Gifticon>, today: int): (r: seq<Gifticon>)
    ensures IsSubsequence(r, gs)
    ensures |r| == Count(gs, AvailableByDay(today))
    ensures forall i :: 0 <= i < |r| ==>
      r[i].status == Available && r[i].expiry.At? && DayOf(r[i].expiry.ms) >= today
    ensures forall i :: (0 <= i < |gs| && gs[i].status == Available && gs[i].expiry.At?
      && DayOf(gs[i].expiry.ms) >= today) ==> gs[i] in r
  {
    var r := Filter(gs, OnTab(AvailableTab, today));
    forall i | 0 <= i < |r| ensures DayOf(r[i].expiry.ms) >= today {
      OnOrAfterStartOfDay(r[i].expiry.ms, today);
    }
    forall i | 0 <= i < |gs| && gs[i].status == Available && gs[i].expiry.At?
      && DayOf(gs[i].expiry.ms) >= today
      ensures gs[i] in r
    {
      OnOrAfterStartOfDay(gs[i].expiry.ms, today);
    }
    forall i | 0 <= i < |gs| ensures OnTab(AvailableTab, today)(gs[i]) == AvailableByDay(today)(gs[i]) {
      if gs[i].expiry.At? {
        OnOrAfterStartOfDay(gs[i].expiry.ms, today);
      }
    }
    CountSame(gs, OnTab(AvailableTab, today), AvailableByDay(today));
    r
  }

  /** `gifticons.filter(...)` for the used tab, restated on day numbers. */
  function UsedList(gs: seq<Gifticon>, today: int): (r: seq<Gifticon>)
    ensures IsSubsequence(r, gs)
    ensures |r| == Count(gs, UsedByDay(today))
    ensures forall i :: 0 <= i < |r| ==>
      r[i].status == Used || (r[i].expiry.At? && DayOf(r[i].expiry.ms) < today)
    ensures forall i :: (0 <= i < |gs| && (gs[i].status == Used
      || (gs[i].expiry.At? && DayOf(gs[i].expiry.ms) < today))) ==> gs[i] in r
  {
    var r := Filter(gs, OnTab(UsedTab, today));
    forall i | 0 <= i < |r| && r[i].status != Used ensures DayOf(r[i].expiry.ms) < today {
      OnOrAfterStartOfDay(r[i].expiry.ms, today);
    }
    forall i | 0 <= i < |gs| && gs[i].status != Used && gs[i].expiry.At?
      && DayOf(gs[i].expiry.ms) < today
      ensures gs[i] in r
    {
      OnOrAfterStartOfDay(gs[i].expiry.ms, today);
    }
    forall i | 0 <= i < |gs| ensures OnTab(UsedTab, today)(gs[i]) == UsedByDay(today)(gs[i]) {
      if gs[i].expiry.At? {
        OnOrAfterStartOfDay(gs[i].expiry.ms, today);
      }
    }
    CountSame(gs, OnTab(UsedTab, today), UsedByDay(today));
    r
  }

  /** A record whose status is one of the two the tabs name and whose expiry parses. */
  predicate WellFormed(g: Gifticon) {
    (g.status == Available || g.status == Used) && g.expiry.At?
  }

  /** A well-formed record is listed on exactly one tab. */
  lemma TabsPartition(g: Gifticon, today: int)
    requires WellFormed(g)
    ensures IsAvailable(g, today) != IsUsedOrExpired(g, today)
  {
  }

  /** No record is ever listed on both tabs; an unparseable expiry keeps an available record off both. */
  lemma TabsDisjoint(g: Gifticon, today: int)
    ensures !(IsAvailable(g, today) && IsUsedOrExpired(g, today))
    ensures g.status == Available && g.expiry.InvalidDate? ==>
      !IsAvailable(g, today) && !IsUsedOrExpired(g, today)
  {
  }

  /** Neither tab lists the record. */
  function OnNoTab(today: int): Gifticon -> bool {
    (g: Gifticon) => !IsAvailable(g, today) && !IsUsedOrExpired(g, today)
  }

  /**
    The two tab counts never exceed the number of records, and add up to it
    exactly when every record is well-formed.
   */
  lemma TabCounts(gs: seq<Gifticon>, today: int)
    ensures |AvailableList(gs, today)| + |UsedList(gs, today)| <= |gs|
    ensures (forall i :: 0 <= i < |gs| ==> WellFormed(gs[i])) ==>
      |AvailableList(gs, today)| + |UsedList(gs, today)| == |gs|
  {
    var avail, used, neither := OnTab(AvailableTab, today), OnTab(UsedTab, today), OnNoTab(today);
    CountSplit(gs, avail, used, neither);
    if forall i :: 0 <= i < |gs| ==> WellFormed(gs[i]) {
      forall i | 0 <= i < |gs| ensures !neither(gs[i]) {
        TabsPartition(gs[i], today);
      }
      CountNone(gs, neither);
    }
  }

  // ----------------------------------------------------------- categories

  /** The chip row: `null` shows every record, a category id only that category's. */
  function CategoryFilter(s: seq<Gifticon>, selected: Option<string>): (r: seq<Gifticon>)
    ensures selected.None? ==> r == s
    ensures selected.Some? ==> IsSubsequence(r, s)
    ensures selected.Some? ==> |r| == Count(s, InCategory(selected.value))
    ensures selected.Some? ==> forall i :: 0 <= i < |r| ==> r[i].categoryId == selected
    ensures selected.Some? ==> forall i :: 0 <= i < |s| && s[i].categoryId == selected ==> s[i] in r
  {
    match selected
    case None => s
    case Some(c) => Filter(s, InCategory(c))
  }

  function InCategory(c: string): Gifticon -> bool {
    (g: Gifticon) => g.categoryId == Some(c)
  }

  // --------------------------------------------------------------- sorting

  const ExpiryOrder: string := "유효기간 순"
  const RegistrationOrder: string := "등록날짜 순"

  /** The comparator the sort-option label selects; any other label compares everything equal. */
  function Comparator(option: string): (Gifticon, Gifticon) -> int {
    if option == ExpiryOrder then (a: Gifticon, b: Gifticon) => TimeDiff(a.expiry, b.expiry)
    else if option == RegistrationOrder then (a: Gifticon, b: Gifticon) => TimeDiff(b.createdAt, a.createdAt)
    else (a: Gifticon, b: Gifticon) => 0
  }

  /** Registration time negated, so that ascending key order is newest first. */
  function NewestFirstKey(g: Gifticon): int {
    if g.createdAt.At? then -g.createdAt.ms else 0
  }

  /** Every registration time parses and no record was registered earlier than one after it. */
  ghost predicate NewestFirst(r: seq<Gifticon>) {
    forall i, j :: 0 <= i < j < |r| ==> r[i].createdAt.At? && r[j].createdAt.At? && r[i].createdAt.ms >= r[j].createdAt.ms
  }

  /** `[...filtered].sort(comparator)`. */
  function SortGifticons(s: seq<Gifticon>, option: string): (r: seq<Gifticon>)
    ensures multiset(r) == multiset(s)
    ensures option == ExpiryOrder && (forall i :: 0 <= i < |s| ==> s[i].expiry.At?) ==>
      ExpiryAscending(r)
    ensures option == RegistrationOrder && (forall i :: 0 <= i < |s| ==> s[i].createdAt.At?) ==>
      NewestFirst(r)
    ensures option != ExpiryOrder && option != RegistrationOrder ==> r == s
  {
    var cmp := Comparator(option);
    var sorted := Sort(s, cmp);
    assert ExpiryOrder[0] != RegistrationOrder[0];
    if option == ExpiryOrder then
      if forall i :: 0 <= i < |s| ==> s[i].expiry.At? then SortByExpiry(s, sorted); sorted
      else sorted
    else if option == RegistrationOrder then
      if forall i :: 0 <= i < |s| ==> s[i].createdAt.At? then SortByRegistration(s, sorted); sorted
      else sorted
    else
      SortIdentity(s, cmp);
      sorted
  }

  lemma SortByExpiry(s: seq<Gifticon>, r: seq<Gifticon>)
    requires forall i :: 0 <= i < |s| ==> s[i].expiry.At?
    requires r == Sort(s, Comparator(ExpiryOrder))
    ensures ExpiryAscending(r)
  {
    var cmp := Comparator(ExpiryOrder);
    assert DifferenceOn(s, cmp, ExpiryKey);
    SortSorted(s, cmp, ExpiryKey);
    forall i | 0 <= i < |r| ensures r[i].expiry.At? {
      assert r[i] in multiset(s);
    }
  }

  lemma SortByRegistration(s: seq<Gifticon>, r: seq<Gifticon>)
    requires forall i :: 0 <= i < |s| ==> s[i].createdAt.At?
    requires r == Sort(s, Comparator(RegistrationOrder))
    ensures NewestFirst(r)
  {
    var cmp := Comparator(RegistrationOrder);
    assert DifferenceOn(s, cmp, NewestFirstKey);
    SortSorted(s, cmp, NewestFirstKey);
    forall i | 0 <= i < |r| ensures r[i].createdAt.At? {
      assert r[i] in multiset(s);
    }
  }

  /** Records expiring at the same instant keep their list order under the expiry sort. */
  lemma ExpirySortStable(s: seq<Gifticon>, k: int)
    requires forall i :: 0 <= i < |s| ==> s[i].expiry.At?
    ensures Filter(SortGifticons(s, ExpiryOrder), KeyIs(ExpiryKey, k)) == Filter(s, KeyIs(ExpiryKey, k))
  {
    assert DifferenceOn(s, Comparator(ExpiryOrder), ExpiryKey);
    SortStable(s, Comparator(ExpiryOrder), ExpiryKey, k);
  }

  /** Records registered at the same instant keep their list order under the registration sort. */
  lemma RegistrationSortStable(s: seq<Gifticon>, k: int)
    requires forall i :: 0 <= i < |s| ==> s[i].createdAt.At?
    ensures Filter(SortGifticons(s, RegistrationOrder), KeyIs(NewestFirstKey, k))
         == Filter(s, KeyIs(NewestFirstKey, k))
  {
    assert DifferenceOn(s, Comparator(RegistrationOrder), NewestFirstKey);
    SortStable(s, Comparator(RegistrationOrder), NewestFirstKey, k);
  }

  // ----------------------------------------------------------------- view

  /** What the home screen renders from its records and its controls. */
  datatype View = View(headerCount: nat, availableCount: nat, usedCount: nat, shown: seq<Gifticon>)

  /** The records the grid shows before sorting: on the tab and in the selected category. */
  function Visible(tab: Tab, selected: Option<string>, today: int): Gifticon -> bool {
    (g: Gifticon) => OnTab(tab, today)(g) && (selected.None? || g.categoryId == selected)
  }

  function BuildView(gs: seq<Gifticon>, tab: Tab, selected: Option<string>, option: string, today: int): (v: View)
    ensures v.headerCount == v.availableCount == Count(gs, OnTab(AvailableTab, today))
    ensures v.usedCount == Count(gs, OnTab(UsedTab, today))
    ensures v.availableCount + v.usedCount <= |gs|
    ensures multiset(v.shown) == multiset(Filter(gs, Visible(tab, selected, today)))
    ensures option != ExpiryOrder && option != RegistrationOrder ==>
      v.shown == Filter(gs, Visible(tab, selected, today))
    ensures v.shown == SortGifticons(Filter(gs, Visible(tab, selected, today)), option)
    ensures tab == AvailableTab && option == ExpiryOrder ==> ExpiryAscending(v.shown)
  {
    var available := AvailableList(gs, today);
    var used := UsedList(gs, today);
    var byTab := if tab == AvailableTab then available else used;
    var filtered := CategoryFilter(byTab, selected);
    TabCounts(gs, today);
    FilterByTabAndCategory(gs, tab, selected, today);
    AvailableHaveExpiry(gs, selected, today);
    View(|available|, |available|, |used|, SortGifticons(filtered, option))
  }

  /** Every record on the available tab has a parsed expiry, so the expiry sort orders it fully. */
  lemma AvailableHaveExpiry(gs: seq<Gifticon>, selected: Option<string>, today: int)
    ensures var f := Filter(gs, Visible(AvailableTab, selected, today));
      forall i :: 0 <= i < |f| ==> f[i].expiry.At?
  {
    var f := Filter(gs, Visible(AvailableTab, selected, today));
    forall i | 0 <= i < |f| ensures f[i].expiry.At? {
      assert Visible(AvailableTab, selected, today)(f[i]);
      assert OnTab(AvailableTab, today)(f[i]);
    }
  }

  lemma FilterByTabAndCategory(gs: seq<Gifticon>, tab: Tab, selected: Option<string>, today: int)
    ensures CategoryFilter(Filter(gs, OnTab(tab, today)), selected) == Filter(gs, Visible(tab, selected, today))
  {
    var onTab := OnTab(tab, today);
    match selected
    case None =>
      assert forall g :: Visible(tab, selected, today)(g) == onTab(g);
      FilterSame(gs, onTab, Visible(tab, selected, today));
    case Some(c) =>
      FilterFilter(gs, onTab, InCategory(c));
      assert forall g :: Visible(tab, selected, today)(g) == Both(onTab, InCategory(c))(g);
      FilterSame(gs, Both(onTab, InCategory(c)), Visible(tab, selected, today));
  }

  // ---------------------------------------------------------------- badge

  /** COLORS.main, '#FF6347' and COLORS.gray5. */
  datatype BadgeColor = MainColour | Alarm | Muted

  datatype BadgeLabel = DaysLeft(days: nat) | Expired

  datatype Badge = Badge(color: BadgeColor, caption: BadgeLabel)

  /**
    The card badge for a day difference (`None` is NaN): the colour starts
    as the main colour, turns alarm red at 7 days or fewer and muted gray at
    0 or fewer; the label counts days down to `D-0` and reads "만료" after.
   */
  function BadgeFor(diff: Option<int>): (b: Badge)
    ensures b.color == Muted <==> diff.Some? && diff.value <= 0
    ensures b.color == Alarm <==> diff.Some? && 1 <= diff.value <= 7
    ensures b.color == MainColour <==> diff.None? || diff.value > 7
    ensures b.caption.DaysLeft? <==> diff.Some? && diff.value >= 0
    ensures b.caption.DaysLeft? ==> b.caption.days == diff.value
  {
    var colour := MainColour;
    var colour := if diff.Some? && diff.value <= 7 then Alarm else colour;
    var colour := if diff.Some? && diff.value <= 0 then Muted else colour;
    var caption := if diff.Some? && diff.value >= 0 then DaysLeft(diff.value) else Expired;
    Badge(colour, caption)
  }

  /** The badge of one card, stated on the expiry's day number. */
  function CardBadge(g: Gifticon, today: int): (b: Badge)
    ensures b.color == Muted <==> g.expiry.At? && DayOf(g.expiry.ms) <= today
    ensures b.color == Alarm <==> g.expiry.At? && today < DayOf(g.expiry.ms) <= today + 7
    ensures b.color == MainColour <==> g.expiry.InvalidDate? || DayOf(g.expiry.ms) > today + 7
    ensures b.caption.DaysLeft? <==> g.expiry.At? && DayOf(g.expiry.ms) >= today
    ensures b.caption.DaysLeft? ==> b.caption.days == DayOf(g.expiry.ms) - today
  {
    BadgeFor(DiffDays(g.expiry, today))
  }

  /** The text on the badge. */
  function BadgeText(caption: BadgeLabel): string {
    match caption
    case DaysLeft(n) => "D-" + FromNat(n)
    case Expired => "만료"
  }

  /** Different labels never render the same text, so the text tells the day count. */
  lemma BadgeTextInjective(a: BadgeLabel, b: BadgeLabel)
    ensures BadgeText(a) == BadgeText(b) ==> a == b
  {
    if BadgeText(a) == BadgeText(b) {
      match a
      case DaysLeft(n) => {
        assert BadgeText(a)[0] == 'D';
        match b
        case DaysLeft(m) =>
          assert FromNat(n) == BadgeText(a)[2..];
          assert FromNat(m) == BadgeText(b)[2..];
          FromNatInjective(n, m);
        case Expired =>
      }
      case Expired =>
        assert BadgeText(a)[0] == '만';
    }
  }

  /** The second header line: the count, zero-padded to two digits. */
  function HeaderCountText(count: nat): (s: string)
    ensures |s| >= |CountSuffix| + 2 && s[|s| - |CountSuffix|..] == CountSuffix
    ensures AllDigits(s[..|s| - |CountSuffix|]) && ToNat(s[..|s| - |CountSuffix|]) == count
    ensures count < 10 ==> |s| == |CountSuffix| + 2
    ensures count >= 10 ==> s[..|s| - |CountSuffix|] == FromNat(count)
  {
    var digits := PadTwo(count);
    assert (digits + CountSuffix)[..|digits|] == digits;
    assert (digits + CountSuffix)[|digits|..] == CountSuffix;
    digits + CountSuffix
  }

  const CountSuffix: string := "개 남아있어요."
}

=== FILE: maybe.dfy ===
/** The optional value used wherever the screens test a field for presence. */
module Maybe {

  datatype Option<+T> = None | Some(value: T)
}

=== FILE: screen_agreement.dfy ===
/**
  How the screens' separate date rules relate. The home card and the
  alert list both work on whole days from today's midnight, so they agree;
  the home tabs compare the expiry with today's midnight while the detail
  screen compares it with the current instant, so those two disagree on
  the expiry day itself.
 */
module ScreenAgreement {
  import opened Maybe
  import opened Decimal
  import opened Gifticons
  import MainScreen
  import AlertScreen
  import DetailScreen

  /** The card colour tells which alert the record raises, and a D-n card reads like its alert. */
  lemma BadgeAgreesWithAlert(g: Gifticon, today: int)
    ensures MainScreen.CardBadge(g, today).color == MainScreen.Muted <==>
      AlertScreen.Classify(g, today) in {Some(AlertScreen.ExpiredAlert), Some(AlertScreen.TodayAlert)}
    ensures MainScreen.CardBadge(g, today).color == MainScreen.Alarm <==>
      AlertScreen.Classify(g, today).Some? && AlertScreen.Classify(g, today).value.DDayAlert?
    ensures MainScreen.CardBadge(g, today).color == MainScreen.MainColour <==> AlertScreen.Classify(g, today).None?
    ensures AlertScreen.Classify(g, today).Some? && AlertScreen.Classify(g, today).value.DDayAlert? ==>
      MainScreen.BadgeText(MainScreen.CardBadge(g, today).caption) == AlertScreen.TimeLabel(AlertScreen.Classify(g, today).value)
  {
  }

  /** A record listed as available on its expiry day shows the gray "D-0" badge. */
  lemma ExpiryDayBadge(g: Gifticon, today: int)
    requires MainScreen.IsAvailable(g, today) && DayOf(g.expiry.ms) == today
    ensures MainScreen.CardBadge(g, today).color == MainScreen.Muted
    ensures MainScreen.BadgeText(MainScreen.CardBadge(g, today).caption) == "D-0"
  {
    assert FromNat(0) == "0";
  }

  /**
    What the detail screen calls available with a parsed expiry, the home
    screen lists as available on the same day.
   */
  lemma DetailAvailableIsListed(g: Gifticon, now: int)
    requires g.status == Available && g.expiry.At?
    requires DetailScreen.EffectiveStatus(g, now) == DetailScreen.EffectiveAvailable
    ensures MainScreen.IsAvailable(g, DayOf(now))
  {
    assert StartOfDay(DayOf(now)) <= now;
  }

  /**
    The converse fails on the expiry day: a voucher expiring at midnight is
    listed as available with "D-0" all day, while its detail screen already
    calls it expired, disables the button and refuses to share it.
   */
  lemma ExpiryDayDisagreement()
    ensures var today := 20000;
      var g := Gifticon("1", "b", "p", Available, At(StartOfDay(today)), At(0), None);
      var now := StartOfDay(today) + 1;
      && DayOf(now) == today
      && MainScreen.IsAvailable(g, today)
      && MainScreen.BadgeText(MainScreen.CardBadge(g, today).caption) == "D-0"
      && DetailScreen.EffectiveStatus(g, now) == DetailScreen.EffectiveExpired
      && DetailScreen.BottomButton(DetailScreen.EffectiveStatus(g, now)).action == DetailScreen.Disabled
      && DetailScreen.Share(DetailScreen.EffectiveStatus(g, now)) == DetailScreen.RejectedNotAvailable
  {
    assert FromNat(0) == "0";
  }

  /**
    The whole window of the disagreement: from the start of the expiry day
    up to the expiry instant itself, the voucher is listed as available at
    home while its detail screen calls it expired.
   */
  lemma ExpiryDayWindow(g: Gifticon, now: int)
    requires g.status == Available && g.expiry.At?
    requires StartOfDay(DayOf(now)) <= g.expiry.ms < now
    ensures MainScreen.IsAvailable(g, DayOf(now))
    ensures DetailScreen.EffectiveStatus(g, now) == DetailScreen.EffectiveExpired
    ensures DetailScreen.Share(DetailScreen.EffectiveStatus(g, now)) == DetailScreen.RejectedNotAvailable
  {
  }

  /**
    An expiry that does not parse: the detail screen calls the voucher
    available and lets it be shared, but the home screen lists it on
    neither tab.
   */
  lemma UnparsedExpiryDisagreement(g: Gifticon, today: int, now: int)
    requires g.status == Available && g.expiry.InvalidDate?
    ensures DetailScreen.EffectiveStatus(g, now) == DetailScreen.EffectiveAvailable
    ensures DetailScreen.Share(DetailScreen.EffectiveStatus(g, now)) == DetailScreen.OpenImageThenAsk
    ensures !MainScreen.IsAvailable(g, today) && !MainScreen.IsUsedOrExpired(g, today)
  {
  }
}

=== FILE: search_screen.dfy ===
/**
  The keyword search (`src/screens/SearchScreen.tsx`, `handleInputChange`).
  The screen declares its own record shape with `brand` and `title`; a
  keyword that is blank after trimming, or a parameter that is not an
  array, clears the results; otherwise the records whose lowercased brand
  or title contains the lowercased keyword are kept, in order. The keyword
  is matched untrimmed: trimming only decides blankness.
 */
module SearchScreen {
  import opened Seqs
  import opened Text

  /** The record shape the search screen declares. */
  datatype Item = Item(id: int, brand: string, title: string, category: string, used: bool)

  /** The `gifticons` route parameter: an array of records, or some other value. */
  datatype Source = Records(items: seq<Item>) | NotAnArray

  /** `text.trim() === ''`. */
  predicate IsBlank(text: string) {
    Trim(text) == ""
  }

  /** The record's lowercased brand or title contains the already lowercased keyword. */
  function MatchesLowered(lower: string): Item -> bool {
    (g: Item) => Includes(ToLower(g.brand), lower) || Includes(ToLower(g.title), lower)
  }

  /** A record matches a keyword when, ignoring ASCII case, its brand or title contains it. */
  ghost predicate Matches(g: Item, keyword: string) {
    || (exists i :: OccursAt(ToLower(g.brand), ToLower(keyword), i))
    || (exists i :: OccursAt(ToLower(g.title), ToLower(keyword), i))
  }

  /** The records a keyword matches, as a selection condition. */
  ghost function Matching(text: string): Item -> bool {
    (g: Item) => Matches(g, text)
  }

  /** The results the screen shows after the input changes to `text`. */
  function Search(source: Source, text: string): (r: seq<Item>)
    ensures (source.NotAnArray? || IsBlank(text)) ==> r == []
    ensures source.Records? && !IsBlank(text) ==> IsSubsequence(r, source.items)
    ensures forall i :: 0 <= i < |r| ==> Matches(r[i], text)
    ensures source.Records? && !IsBlank(text) ==>
      forall i :: 0 <= i < |source.items| && Matches(source.items[i], text) ==> source.items[i] in r
    ensures source.Records? && !IsBlank(text) ==> |r| == Count(source.items, Matching(text))
  {
    if source.NotAnArray? || IsBlank(text) then []
    else
      var lower := ToLower(text);
      LoweredMatching(text);
      FilterSame(source.items, MatchesLowered(lower), Matching(text));
      Filter(source.items, MatchesLowered(lower))
  }

  /** The screen's test on the lowercased keyword is the matching condition. */
  lemma LoweredMatching(text: string)
    ensures forall g :: MatchesLowered(ToLower(text))(g) == Matching(text)(g)
  {
  }

  /** Only whitespace, of any of the kinds `trim` removes, empties the results. */
  lemma BlankIffAllWhitespace(text: string)
    ensures IsBlank(text) <==> forall i :: 0 <= i < |text| ==> IsTrimmable(text[i])
  {
    TrimEmptyIff(text);
  }

  /** The results are exactly the order-preserving selection of the records the keyword matches. */
  lemma SearchIsFilter(items: seq<Item>, text: string)
    requires !IsBlank(text)
    ensures Search(Records(items), text) == Filter(items, Matching(text))
  {
    LoweredMatching(text);
    FilterSame(items, MatchesLowered(ToLower(text)), Matching(text));
  }

  /**
    The results keep input order and nothing is moved ahead for being
    available: a matching record at the head of the list heads the results,
    even a used one with an available match behind it.
   */
  lemma {:induction false} InputOrderKept(first: Item, rest: seq<Item>, text: string)
    requires !IsBlank(text) && Matches(first, text)
    ensures var r := Search(Records([first] + rest), text);
      |r| > 0 && r[0] == first && r[1..] == Search(Records(rest), text)
  {
    SearchIsFilter([first] + rest, text);
    SearchIsFilter(rest, text);
    FilterConcat([first], rest, Matching(text));
    FilterOne(first, Matching(text));
  }

  /** A keyword longer than both fields finds nothing. */
  lemma TooLongNeverMatches(g: Item, lower: string)
    requires |lower| > |g.brand| && |lower| > |g.title|
    ensures !MatchesLowered(lower)(g)
  {
  }

  /**
    Surrounding spaces are part of the keyword: " ab" is not blank, yet it
    does not find the brand "ab", although its trimmed form would.
   */
  lemma UntrimmedKeyword()
    ensures Search(Records([Item(1, "ab", "", "", false)]), " ab") == []
  {
    var g := Item(1, "ab", "", "", false);
    NotBlank(" ab", 1);
    var spaced := ToLower(" ab");
    assert |spaced| == 3;
    TooLongNeverMatches(g, spaced);
    assert Filter([g], MatchesLowered(spaced)) == [];
  }

  /** The trimmed keyword "ab" does find the brand "ab". */
  lemma TrimmedKeyword()
    ensures Search(Records([Item(1, "ab", "", "", false)]), "ab") == [Item(1, "ab", "", "", false)]
  {
    var g := Item(1, "ab", "", "", false);
    NotBlank("ab", 0);
    var plain := ToLower("ab");
    assert plain == "ab";
    assert ToLower(g.brand) == "ab";
    assert OccursAt(ToLower(g.brand), plain, 0);
    assert MatchesLowered(plain)(g);
    assert Filter([g], MatchesLowered(plain)) == [g];
  }

  /** A keyword with any character `trim` keeps is not blank. */
  lemma NotBlank(text: string, i: int)
    requires 0 <= i < |text| && !IsTrimmable(text[i])
    ensures !IsBlank(text)
  {
    BlankIffAllWhitespace(text);
  }

  /** Keywords that lowercase alike give the same results: case is ignored throughout. */
  lemma CaseBlind(source: Source, a: string, b: string)
    requires ToLower(a) == ToLower(b)
    ensures Search(source, a) == Search(source, b)
  {
    assert forall c: char :: IsTrimmable(c) <==> IsTrimmable(LowerChar(c));
    assert forall i :: 0 <= i < |a| ==> (IsTrimmable(a[i]) <==> IsTrimmable(ToLower(a)[i]));
    assert forall i :: 0 <= i < |b| ==> (IsTrimmable(b[i]) <==> IsTrimmable(ToLower(b)[i]));
    BlankIffAllWhitespace(a);
    BlankIffAllWhitespace(b);
  }

  /** Case is ignored on both sides: "AB" finds the title "xaby". */
  lemma CaseInsensitive()
    ensures Search(Records([Item(2, "", "xaby", "", true)]), "AB") == [Item(2, "", "xaby", "", true)]
  {
    var g := Item(2, "", "xaby", "", true);
    NotBlank("AB", 0);
    var lower := ToLower("AB");
    assert lower[0] == LowerChar('A') == 'a';
    assert lower[1] == LowerChar('B') == 'b';
    assert lower == "ab";
    var title := ToLower(g.title);
    assert title[1..3] == "ab";
    assert OccursAt(title, lower, 1);
    assert MatchesLowered(lower)(g);
    assert Filter([g], MatchesLowered(lower)) == [g];
  }
}

=== FILE: seqs.dfy ===
/**
  Order-preserving selection over sequences. Every list the screens show is
  an `Array.prototype.filter` of the records they were given; this module
  states once what such a filter keeps and in which order.
 */
module Seqs {

  /** Number of elements of `s` that satisfy `p`. */
  function Count<T>(s: seq<T>, p: T -> bool): (n: nat)
    ensures n <= |s|
  {
    if |s| == 0 then 0 else (if p(s[0]) then 1 else 0) + Count(s[1..], p)
  }

  /** `r` can be obtained from `s` by deleting elements, keeping the rest in order. */
  predicate IsSubsequence<T(==)>(r: seq<T>, s: seq<T>)
    decreases |s|
  {
    if |r| == 0 then true
    else if |s| == 0 then false
    else (r[0] == s[0] && IsSubsequence(r[1..], s[1..])) || IsSubsequence(r, s[1..])
  }

  /** The elements of `s` that satisfy `p`, in their original order. */
  function Filter<T(==)>(s: seq<T>, p: T -> bool): (r: seq<T>)
    ensures |r| == Count(s, p)
    ensures forall i :: 0 <= i < |r| ==> p(r[i]) && r[i] in s
    ensures forall i :: 0 <= i < |s| && p(s[i]) ==> s[i] in r
    ensures IsSubsequence(r, s)
  {
    if |s| == 0 then []
    else if p(s[0]) then [s[0]] + Filter(s[1..], p)
    else Filter(s[1..], p)
  }

  /** A one-element sequence keeps its element exactly when the predicate holds. */
  lemma FilterOne<T>(x: T, p: T -> bool)
    ensures Filter([x], p) == if p(x) then [x] else []
  {
    assert [x][1..] == [];
  }

  /** Filtering distributes over concatenation. */
  lemma {:induction false} FilterConcat<T>(a: seq<T>, b: seq<T>, p: T -> bool)
    ensures Filter(a + b, p) == Filter(a, p) + Filter(b, p)
    decreases |a|
  {
    if |a| == 0 {
      assert a + b == b;
    } else {
      assert (a + b)[0] == a[0];
      assert (a + b)[1..] == a[1..] + b;
      FilterConcat(a[1..], b, p);
    }
  }

  /** A subsequence made only of `p`-elements has at most as many elements as `s` has. */
  lemma {:induction false} SubsequenceCount<T>(t: seq<T>, s: seq<T>, p: T -> bool)
    requires IsSubsequence(t, s)
    requires forall i :: 0 <= i < |t| ==> p(t[i])
    ensures |t| <= Count(s, p)
    decreases |s|
  {
    if |t| == 0 {
    } else if t[0] == s[0] && IsSubsequence(t[1..], s[1..]) {
      SubsequenceCount(t[1..], s[1..], p);
    } else {
      SubsequenceCount(t, s[1..], p);
    }
  }

  /**
    `Filter` is the only order-preserving selection of `p`-elements that
    misses none of them: these three facts pin the filtered list down.
   */
  lemma {:induction false} FilterUnique<T>(t: seq<T>, s: seq<T>, p: T -> bool)
    requires IsSubsequence(t, s)
    requires forall i :: 0 <= i < |t| ==> p(t[i])
    requires |t| == Count(s, p)
    ensures t == Filter(s, p)
    decreases |s|
  {
    if |s| == 0 {
    } else if |t| == 0 {
      assert |Filter(s, p)| == 0;
    } else if t[0] == s[0] && IsSubsequence(t[1..], s[1..]) {
      assert p(s[0]);
      FilterUnique(t[1..], s[1..], p);
      assert t == [t[0]] + t[1..];
    } else {
      assert IsSubsequence(t, s[1..]);
      SubsequenceCount(t, s[1..], p);
      if p(s[0]) {
        assert false;
      } else {
        FilterUnique(t, s[1..], p);
      }
    }
  }

  /**
    Two selections that no element satisfies together, plus the elements
    that satisfy neither, account for the whole sequence.
   */
  lemma {:induction false} CountSplit<T>(s: seq<T>, p: T -> bool, q: T -> bool, neither: T -> bool)
    requires forall x :: !(p(x) && q(x))
    requires forall x :: neither(x) <==> !p(x) && !q(x)
    ensures Count(s, p) + Count(s, q) + Count(s, neither) == |s|
    decreases |s|
  {
    if |s| > 0 {
      CountSplit(s[1..], p, q, neither);
    }
  }

  /** Both selections at once. */
  function Both<T>(p: T -> bool, q: T -> bool): T -> bool {
    x => p(x) && q(x)
  }

  /** Filtering twice is filtering once by both conditions. */
  lemma {:induction false} FilterFilter<T>(s: seq<T>, p: T -> bool, q: T -> bool)
    ensures Filter(Filter(s, p), q) == Filter(s, Both(p, q))
    decreases |s|
  {
    if |s| > 0 {
      FilterFilter(s[1..], p, q);
      if p(s[0]) {
        assert Filter(s, p) == [s[0]] + Filter(s[1..], p);
        assert Filter(s, p)[1..] == Filter(s[1..], p);
      }
    }
  }

  /** Filters by pointwise-equal conditions agree. */
  lemma {:induction false} FilterSame<T>(s: seq<T>, p: T -> bool, q: T -> bool)
    requires forall x :: p(x) == q(x)
    ensures Filter(s, p) == Filter(s, q)
    decreases |s|
  {
    if |s| > 0 {
      FilterSame(s[1..], p, q);
    }
  }

  /** Conditions that agree on every element of `s` count the same. */
  lemma {:induction false} CountSame<T>(s: seq<T>, p: T -> bool, q: T -> bool)
    requires forall i :: 0 <= i < |s| ==> p(s[i]) == q(s[i])
    ensures Count(s, p) == Count(s, q)
    decreases |s|
  {
    if |s| > 0 {
      assert forall i :: 0 <= i < |s[1..]| ==> s[1..][i] == s[i + 1];
      CountSame(s[1..], p, q);
    }
  }

  /** No element satisfies `p`, so none is counted. */
  lemma {:induction false} CountNone<T>(s: seq<T>, p: T -> bool)
    requires forall i :: 0 <= i < |s| ==> !p(s[i])
    ensures Count(s, p) == 0
    decreases |s|
  {
    if |s| > 0 {
      CountNone(s[1..], p);
    }
  }
}

=== FILE: stable_sort.dfy ===
/**
  The `Array.prototype.sort` the screens call with a difference comparator.
  ECMAScript requires the sort to be stable and reads a NaN comparator result
  as +0. For a consistent comparator every stable sort gives the same
  output, so the model uses an insertion sort driven by the comparator
  itself; for an inconsistent one (an invalid date in the data) the order
  is left to the engine and the model promises only a permutation.
 */
module StableSort {
  import opened Seqs

  /** Inserts `x` behind `t`, stepping left past every element the comparator puts after `x`. */
  function Insert<T>(t: seq<T>, x: T, cmp: (T, T) -> int): (r: seq<T>)
    ensures |r| == |t| + 1
    ensures multiset(r) == multiset(t) + multiset{x}
  {
    if |t| == 0 then [x]
    else if cmp(t[|t| - 1], x) > 0 then
      assert t == t[..|t| - 1] + [t[|t| - 1]];
      Insert(t[..|t| - 1], x, cmp) + [t[|t| - 1]]
    else t + [x]
  }

  /** `s` sorted by `cmp`: each element in turn is inserted into the sorted prefix before it. */
  function Sort<T>(s: seq<T>, cmp: (T, T) -> int): (r: seq<T>)
    ensures |r| == |s|
    ensures multiset(r) == multiset(s)
  {
    if |s| == 0 then []
    else
      assert s == s[..|s| - 1] + [s[|s| - 1]];
      Insert(Sort(s[..|s| - 1], cmp), s[|s| - 1], cmp)
  }

  /** Keys never decrease along `s`. */
  ghost predicate SortedBy<T>(s: seq<T>, key: T -> int) {
    forall i, j :: 0 <= i < j < |s| ==> key(s[i]) <= key(s[j])
  }

  /** On the elements of `s`, `cmp` is the difference comparator of `key`. */
  ghost predicate DifferenceOn<T>(s: seq<T>, cmp: (T, T) -> int, key: T -> int) {
    forall a, b :: a in s && b in s ==> cmp(a, b) == key(a) - key(b)
  }

  /** Selects the elements whose key is `k`. */
  function KeyIs<T>(key: T -> int, k: int): T -> bool {
    x => key(x) == k
  }

  /** Appending an element whose key bounds every key keeps a sorted sequence sorted. */
  lemma AppendLargest<T>(u: seq<T>, y: T, key: T -> int)
    requires SortedBy(u, key)
    requires forall z :: z in u ==> key(z) <= key(y)
    ensures SortedBy(u + [y], key)
  {
    var r := u + [y];
    forall i, j | 0 <= i < j < |r| ensures key(r[i]) <= key(r[j]) {
      assert r[i] == u[i];
      if j < |u| {
        assert r[j] == u[j];
      } else {
        assert u[i] in u;
      }
    }
  }

  lemma {:induction false} InsertSorted<T>(t: seq<T>, x: T, cmp: (T, T) -> int, key: T -> int)
    requires SortedBy(t, key)
    requires DifferenceOn(t + [x], cmp, key)
    ensures SortedBy(Insert(t, x, cmp), key)
    decreases |t|
  {
    if |t| > 0 {
      var init, last := t[..|t| - 1], t[|t| - 1];
      assert t == init + [last];
      assert last in t + [x] && x in t + [x];
      assert SortedBy(init, key);
      if cmp(last, x) > 0 {
        DifferenceOnPart(init + [x], t + [x], cmp, key);
        InsertSorted(init, x, cmp, key);
        var u := Insert(init, x, cmp);
        forall z | z in u ensures key(z) <= key(last) {
          assert z in multiset(u);
          if z != x {
            assert z in multiset(init);
            var i :| 0 <= i < |init| && init[i] == z;
            assert t[i] == z;
          }
        }
        AppendLargest(u, last, key);
      } else {
        forall z | z in t ensures key(z) <= key(x) {
          var i :| 0 <= i < |t| && t[i] == z;
          if i < |t| - 1 {
            assert key(t[i]) <= key(t[|t| - 1]);
          }
        }
        AppendLargest(t, x, key);
      }
    }
  }

  /** With a difference comparator over integer keys the output is ascending by key. */
  lemma {:induction false} SortSorted<T>(s: seq<T>, cmp: (T, T) -> int, key: T -> int)
    requires DifferenceOn(s, cmp, key)
    ensures SortedBy(Sort(s, cmp), key)
    decreases |s|
  {
    if |s| > 0 {
      var init, last := s[..|s| - 1], s[|s| - 1];
      assert s == init + [last];
      DrawnFrom(init, s);
      DifferenceOnPart(init, s, cmp, key);
      SortSorted(init, cmp, key);
      var sorted := Sort(init, cmp);
      DrawnFrom(sorted + [last], s);
      DifferenceOnPart(sorted + [last], s, cmp, key);
      InsertSorted(sorted, last, cmp, key);
    }
  }

  /** Every element of `part` occurs in `whole` when `part`'s multiset is contained in `whole`'s. */
  lemma DrawnFrom<T>(part: seq<T>, whole: seq<T>)
    requires multiset(part) <= multiset(whole)
    ensures forall a :: a in part ==> a in whole
  {
    forall a | a in part ensures a in whole {
      assert a in multiset(part);
    }
  }

  /** A difference comparator on a sequence is one on every sequence drawn from it. */
  lemma DifferenceOnPart<T>(part: seq<T>, whole: seq<T>, cmp: (T, T) -> int, key: T -> int)
    requires DifferenceOn(whole, cmp, key)
    requires forall a :: a in part ==> a in whole
    ensures DifferenceOn(part, cmp, key)
  {
  }

  /** Moving an element past another whose key differs does not change any one key's selection. */
  lemma SwapStable<T>(init: seq<T>, u: seq<T>, x: T, last: T, p: T -> bool)
    requires Filter(u, p) == Filter(init, p) + Filter([x], p)
    requires !(p(x) && p(last))
    ensures Filter(u + [last], p) == Filter(init + [last], p) + Filter([x], p)
  {
    FilterConcat(u, [last], p);
    FilterConcat(init, [last], p);
    FilterOne(x, p);
    FilterOne(last, p);
    if p(x) {
      assert Filter([last], p) == [];
    } else {
      assert Filter([x], p) == [];
    }
  }

  lemma {:induction false} InsertStable<T>(t: seq<T>, x: T, cmp: (T, T) -> int, key: T -> int, k: int)
    requires DifferenceOn(t + [x], cmp, key)
    ensures Filter(Insert(t, x, cmp), KeyIs(key, k)) == Filter(t, KeyIs(key, k)) + Filter([x], KeyIs(key, k))
    decreases |t|
  {
    var p := KeyIs(key, k);
    if |t| == 0 {
    } else {
      var init, last := t[..|t| - 1], t[|t| - 1];
      assert t == init + [last];
      assert last in t + [x] && x in t + [x];
      if cmp(last, x) > 0 {
        DifferenceOnPart(init + [x], t + [x], cmp, key);
        InsertStable(init, x, cmp, key, k);
        SwapStable(init, Insert(init, x, cmp), x, last, p);
      } else {
        FilterConcat(t, [x], p);
      }
    }
  }

  /**
    Stability: among the elements that share any one key, the sort keeps
    the input order.
   */
  lemma {:induction false} SortStable<T>(s: seq<T>, cmp: (T, T) -> int, key: T -> int, k: int)
    requires DifferenceOn(s, cmp, key)
    ensures Filter(Sort(s, cmp), KeyIs(key, k)) == Filter(s, KeyIs(key, k))
    decreases |s|
  {
    if |s| > 0 {
      var init, last := s[..|s| - 1], s[|s| - 1];
      assert s == init + [last];
      assert DifferenceOn(init, cmp, key) by {
        forall a | a in init ensures a in s {
        }
      }
      SortStable(init, cmp, key, k);
      var sorted := Sort(init, cmp);
      assert DifferenceOn(sorted + [last], cmp, key) by {
        forall a | a in sorted + [last] ensures a in s {
          if a != last {
            assert a in multiset(sorted);
          }
        }
      }
      InsertStable(sorted, last, cmp, key, k);
      FilterConcat(init, [last], KeyIs(key, k));
    }
  }

  /** A comparator that never asks to move an element leaves the order unchanged. */
  lemma {:induction false} SortIdentity<T>(s: seq<T>, cmp: (T, T) -> int)
    requires forall a, b :: a in s && b in s ==> cmp(a, b) <= 0
    ensures Sort(s, cmp) == s
    decreases |s|
  {
    if |s| > 0 {
      var init := s[..|s| - 1];
      assert s == init + [s[|s| - 1]];
      SortIdentity(init, cmp);
      if |init| > 0 {
        assert init[|init| - 1] in s;
      }
    }
  }
}

=== FILE: text.dfy ===
/**
  The three JavaScript string operations the keyword search relies on:
  `trim`, `toLowerCase` and `includes`.
 */
module Text {

  /**
    The characters `String.prototype.trim` removes: ECMAScript WhiteSpace
    (tab, vertical tab, form feed, space, no-break space, byte order mark and
    the other space separators) and LineTerminator (LF, CR, LS, PS).
   */
  predicate IsTrimmable(c: char) {
    var u := c as int;
    || u == 0x0009 || u == 0x000B || u == 0x000C || u == 0x0020
    || u == 0x00A0 || u == 0xFEFF || u == 0x1680
    || (0x2000 <= u <= 0x200A) || u == 0x202F || u == 0x205F || u == 0x3000
    || u == 0x000A || u == 0x000D || u == 0x2028 || u == 0x2029
  }

  function TrimStart(s: string): (r: string)
    ensures |r| <= |s| && r == s[|s| - |r|..]
    ensures forall i :: 0 <= i < |s| - |r| ==> IsTrimmable(s[i])
    ensures |r| > 0 ==> !IsTrimmable(r[0])
  {
    if |s| > 0 && IsTrimmable(s[0]) then TrimStart(s[1..]) else s
  }

  function TrimEnd(s: string): (r: string)
    ensures |r| <= |s| && r == s[..|r|]
    ensures forall i :: |r| <= i < |s| ==> IsTrimmable(s[i])
    ensures |r| > 0 ==> !IsTrimmable(r[|r| - 1])
  {
    if |s| > 0 && IsTrimmable(s[|s| - 1]) then TrimEnd(s[..|s| - 1]) else s
  }

  /** `r` is `s[lo..]` cut to `|r|` characters, and everything cut away is whitespace. */
  ghost predicate TrimmedAt(s: string, r: string, lo: int) {
    && 0 <= lo <= |s| - |r|
    && r == s[lo..lo + |r|]
    && (forall i :: 0 <= i < lo ==> IsTrimmable(s[i]))
    && (forall i :: lo + |r| <= i < |s| ==> IsTrimmable(s[i]))
  }

  /** `s.trim()`: `s` without its leading and trailing whitespace. */
  function Trim(s: string): (r: string)
    ensures exists lo :: TrimmedAt(s, r, lo)
    ensures |r| > 0 ==> !IsTrimmable(r[0]) && !IsTrimmable(r[|r| - 1])
  {
    var front := TrimStart(s);
    var r := TrimEnd(front);
    TrimBothEnds(s, front, r);
    r
  }

  /** Cutting whitespace from the front and then from the back leaves a trimmed slice. */
  lemma TrimBothEnds(s: string, front: string, r: string)
    requires |front| <= |s| && front == s[|s| - |front|..]
    requires forall i :: 0 <= i < |s| - |front| ==> IsTrimmable(s[i])
    requires |r| <= |front| && r == front[..|r|]
    requires forall i :: |r| <= i < |front| ==> IsTrimmable(front[i])
    ensures TrimmedAt(s, r, |s| - |front|)
  {
    var lo := |s| - |front|;
    forall k | 0 <= k < |r| ensures r[k] == s[lo + k] {
      assert r[k] == front[k];
    }
    assert r == s[lo..lo + |r|];
    forall i | lo + |r| <= i < |s| ensures IsTrimmable(s[i]) {
      assert s[i] == front[i - lo];
    }
  }

  /** `s.trim() === ''` exactly when every character of `s` is whitespace. */
  lemma TrimEmptyIff(s: string)
    ensures Trim(s) == "" <==> forall i :: 0 <= i < |s| ==> IsTrimmable(s[i])
  {
    var r := Trim(s);
    var lo :| TrimmedAt(s, r, lo);
    if r != "" {
      assert s[lo] == r[0];
    }
  }

  /** `toLowerCase` on one character; only the ASCII letters A-Z change. */
  function LowerChar(c: char): (d: char)
    ensures !('A' <= d <= 'Z')
    ensures 'A' <= c <= 'Z' ==> d as int == c as int - 'A' as int + 'a' as int
    ensures !('A' <= c <= 'Z') ==> d == c
  {
    if 'A' <= c <= 'Z' then ((c as int) - ('A' as int) + ('a' as int)) as char else c
  }

  function ToLower(s: string): (r: string)
    ensures |r| == |s|
    ensures forall i :: 0 <= i < |s| ==> r[i] == LowerChar(s[i])
  {
    seq(|s|, i requires 0 <= i < |s| => LowerChar(s[i]))
  }

  /** `needle` sits in `hay` starting at index `i`. */
  ghost predicate OccursAt(hay: string, needle: string, i: int) {
    0 <= i && i + |needle| <= |hay| && hay[i..i + |needle|] == needle
  }

  /** Past a non-matching first position, the occurrences are those of the tail. */
  lemma IncludesTail(hay: string, needle: string)
    requires |hay| > 0 && !(needle <= hay)
    ensures (exists i :: OccursAt(hay, needle, i)) <==> (exists i :: OccursAt(hay[1..], needle, i))
  {
    if exists i :: OccursAt(hay, needle, i) {
      var i :| OccursAt(hay, needle, i);
      assert i != 0;
      assert OccursAt(hay[1..], needle, i - 1);
    }
    if exists i :: OccursAt(hay[1..], needle, i) {
      var i :| OccursAt(hay[1..], needle, i);
      assert OccursAt(hay, needle, i + 1);
    }
  }

  /** `hay.includes(needle)`; the empty needle is found in every string. */
  function Includes(hay: string, needle: string): (b: bool)
    ensures b <==> exists i :: OccursAt(hay, needle, i)
    decreases |hay|
  {
    if needle <= hay then
      assert OccursAt(hay, needle, 0);
      true
    else if |hay| == 0 then
      false
    else
      IncludesTail(hay, needle);
      Includes(hay[1..], needle)
  }
}
